=== FILE: README.md ===
# mfabrik.zoho core, modelled in Dafny

A model of the core of the `mfabrik.zoho` client library for the Zoho CRM
web API: the `Connection` class and the two module-level helpers in
`mfabrik/zoho/core.py`.

- **Values.** `values.dfy` holds the Python values the client handles: None, booleans, integers and strings, with truthiness and `str()`. `json.dfy` holds a decoded JSON document.
- **Errors.** `errors.dfy` holds the exceptions and the `Result`/`Outcome` types that carry them. `ZohoException` is the library's own. The built-in errors the model represents are `KeyError`, `AttributeError` and the unpacking `ValueError`; those the model leaves out are listed under "Left out".
- **Strings.** `text.dfy` models the string methods the parser relies on: `split`, `strip` (with Python's whitespace set) and `startswith`. It also defines `join`, used only to state that splitting can be undone.
- **Session** (`ticket.dfy`, `session.dfy`):
  - `Connection(**kwargs)` chooses which options it keeps.
  - The login form.
  - `_parse_ticket_response`, which reads the `KEY=VALUE` login body.
  - `_create_ticket`, which decides on the `WARNING`, `RESULT` and `TICKET` fields.
  - `open` and `ensure_opened`.
- **Requests** (`dispatcher.dfy`): the form `do_call` and `do_xml_call` post. The session's `ticket`, `authtoken` and `scope` are added over the caller's parameters, and every value is passed through `stringify`.
- **Responses** (`xml.dfy`, `responses.dfy`):
  - ElementTree's `find` and `findall` (direct children only).
  - `check_successful_xml`, `get_converted_records` and `get_inserted_records` over an already parsed document.
  - `decode_json` over an already decoded value.

A connection is an immutable record. `open` returns the updated connection
instead of assigning `self.ticket`, and on failure the caller keeps the old one.
Every operation that can raise returns `Err(e)` with the exception it would raise.
Maps are values, so the caller's parameter map is never changed by building a
request form: `do_call` and `do_xml_call` copy it before adding to it.

In these places the model follows the code as written, which a caller might
not expect:

- `check_successful_xml` looks only at the `error` elements that are direct children of the root (`findall("error")`), not at `error` elements anywhere in the document.
- A connection is refused only when `scope` is missing or `None`. An empty `scope` is accepted.
- `do_call` reads `self.authtoken` unconditionally. A connection made with a username and password but no truthy token therefore cannot make a call, even after `open()`: the read raises `AttributeError`.
- `_parse_ticket_response` unpacks `line.split("=")` into exactly two names. A line holding two or more `=` raises an unpacking error instead of being read.

## Model

| member | source | states |
|---|---|---|
| PyValues.StrIntRoundTrip | mfabrik/zoho/core.py:272-278 | an integer parameter is sent as an integer literal that reads back as the same integer |
| PyValues.StrIntInjective | mfabrik/zoho/core.py:276 | distinct integer parameters are sent as distinct texts |
| PyValues.ParseDigits | mfabrik/zoho/core.py:276 | the decimal digits `str()` writes for a natural number read back as that number |
| Text.StripLeftMeaning | mfabrik/zoho/core.py:149 | `lstrip` keeps a suffix, drops only whitespace and stops at the first non-whitespace character |
| Text.StripRightMeaning | mfabrik/zoho/core.py:149 | `rstrip` keeps a prefix, drops only whitespace and stops at the last non-whitespace character |
| Text.StripEmptyIffAllSpace | mfabrik/zoho/core.py:149-151 | `line.strip() == ""` holds exactly for whitespace-only lines, in both directions |
| Text.SplitPieces | mfabrik/zoho/core.py:142 | no piece of a split contains the separator |
| Text.JoinSplit | mfabrik/zoho/core.py:142 | joining the pieces of a split with the separator gives back the original text |
| Text.SplitJoin | mfabrik/zoho/core.py:142 | splitting a join of separator-free pieces gives back exactly those pieces |
| Text.SplitNoSeparator | mfabrik/zoho/core.py:156 | text without the separator splits into itself alone |
| Text.SplitFirstSeparator | mfabrik/zoho/core.py:156 | the piece before the first separator comes first, and the rest splits on its own |
| Xml.FindAll | mfabrik/zoho/core.py:235 | `findall(tag)` keeps exactly the direct children with that tag, never more than there are children |
| Xml.Find | mfabrik/zoho/core.py:252 | `find(tag)` is `None` exactly when no direct child has the tag; otherwise it is the first child with that tag |
| Xml.FindIsFirstOfFindAll | mfabrik/zoho/core.py:252 | `find` returns the first element `findall` lists, and `None` when that list is empty |
| Xml.FindAllAppend | mfabrik/zoho/core.py:263-264 | `findall` keeps document order: the matches of two runs of children are the first run's followed by the second's |
| Ticket.ClassifyLineMeaning | mfabrik/zoho/core.py:145-156 | comments are the lines starting with `#`; blank lines are the rest that are whitespace only; lines without `=` are the rest of those; an entry is the text on either side of the line's only `=`; an unpacking error comes from a line with two or more `=` |
| Ticket.ClassifyPair | mfabrik/zoho/core.py:153-157 | a non-comment line with exactly one `=` is read as the entry on either side of it |
| Ticket.BadLineError | mfabrik/zoho/core.py:153-156 | a line without `=` raises the library's exception; a line with several `=` raises a built-in error |
| Ticket.ParseSucceedsIffWellFormed | mfabrik/zoho/core.py:142-159 | parsing the body succeeds exactly when no line lacks `=` or has several `=` |
| Ticket.FirstBadLineDecides | mfabrik/zoho/core.py:153-156 | the exception raised is the one belonging to the first bad line |
| Ticket.MissingSeparatorFails | mfabrik/zoho/core.py:153-154 | when the first bad line has no `=`, the exception is the library's, quoting the whole body |
| Ticket.ParsedKeys | mfabrik/zoho/core.py:156-157 | the parsed dictionary holds exactly the keys some entry line defines |
| Ticket.LastEntryWins | mfabrik/zoho/core.py:157 | each key maps to the value on the last line that defines it |
| Ticket.SkippedLineIsNeutral | mfabrik/zoho/core.py:145-151 | a comment or whitespace-only line adds no entry and raises nothing: the classified lines parse the same without it, with the body the error would quote held as given |
| Ticket.ParseAppendPair | mfabrik/zoho/core.py:156-157 | appending an entry line to a parsable body adds or overwrites just that key |
| Ticket.ParseJoinedLines | mfabrik/zoho/core.py:142 | a body built by joining newline-free lines is parsed line by line, as exactly those lines |
| Ticket.ClassifyThreeEntries | mfabrik/zoho/core.py:153-157 | three non-comment lines, each with exactly one `=`, are read as their three entries |
| Ticket.ParseThreePairs | mfabrik/zoho/core.py:156-157 | three entries build the dictionary of the three, later keys overwriting earlier ones |
| Ticket.ThreeEntryBody | mfabrik/zoho/core.py:142-159 | a body of three entry lines parses into the dictionary of those entries |
| Ticket.DecideTicket | mfabrik/zoho/core.py:123-130 | the ticket comes back exactly when `WARNING` is `null`, `RESULT` is `TRUE` and `TICKET` is present, and it is the `TICKET` field; a non-`null` warning fails first, quoting the warning; a result other than `TRUE` fails next; the library's exception is raised exactly in those two cases, and any other failure (a missing field) is a built-in error |
| Ticket.LoginResponseDecides | mfabrik/zoho/core.py:121-130 | for a login body with warning, result and ticket lines, the ticket comes back exactly when the warning is `null` and the result is `TRUE`; otherwise the warning error, checked first, or the result error |
| Session.Connect | mfabrik/zoho/core.py:56-91 | refused with "No Scope" exactly when scope is missing or `None`; credentials are kept exactly when both username and password are given and not `None`; a token is kept exactly when it is truthy; `auth_url` defaults; the ticket starts absent; the result is valid |
| Session.LoginRequestFor | mfabrik/zoho/core.py:110-118 | the login form posts exactly the service name, `FROM_AGENT=true`, the username and the password to the fixed login URL; a connection without credentials raises an attribute error |
| Session.LoginIgnoresAuthUrl | mfabrik/zoho/core.py:83 | the `auth_url` option has no effect on the login request |
| Session.CreateTicket | mfabrik/zoho/core.py:101-130 | without credentials it raises an attribute error. A body that fails to parse gives the parser's exception. A body that parses gives the ticket decision on its fields: "Could not auth:" with the warning, then "Ticket result was not valid", then the ticket, or a lookup error for a missing field. A ticket comes back only with a `null` warning, a `TRUE` result and a ticket present, and it is that ticket |
| Session.Open | mfabrik/zoho/core.py:97-99 | `open()` succeeds exactly when `_create_ticket` does; it then stores that ticket and changes nothing else; otherwise it raises the same exception |
| Session.EnsureOpened | mfabrik/zoho/core.py:161-167 | `ensure_opened()` fails exactly for a connection with credentials, no token and no ticket, with "Need to initialize Zoho ticket first" |
| Session.OpenPreservesValid | mfabrik/zoho/core.py:97-99 | opening keeps a connection valid |
| Session.OpenedConnectionPasses | mfabrik/zoho/core.py:161-167 | after a successful `open()`, `ensure_opened()` passes |
| Session.FreshConnectionNeedsOpen | mfabrik/zoho/core.py:161-167 | a newly built connection fails `ensure_opened()` exactly when it was given a username and password and no truthy token |
| Session.TokenConnectionPasses | mfabrik/zoho/core.py:163 | a connection with a token never fails `ensure_opened()` |
| Session.OpenStoresTicket | mfabrik/zoho/core.py:97-130 | a login body with a `null` warning, a `TRUE` result and a ticket opens the connection with exactly that ticket |
| Session.WarningFailsOpen | mfabrik/zoho/core.py:123-125 | a non-`null` warning makes `open()` raise "Could not auth:" followed by the warning, whatever the result says |
| Dispatcher.Stringify | mfabrik/zoho/core.py:272-278 | `stringify` keeps exactly the same keys and maps each to the `str()` text of its value |
| Dispatcher.StringifyIdempotent | mfabrik/zoho/core.py:272-278 | stringifying values that are already text changes nothing |
| Dispatcher.CallParameters | mfabrik/zoho/core.py:185-199 | the call fails exactly when the connection has no token. Otherwise the form's keys are the caller's plus `authtoken`, `scope` and, when set, `ticket`. The session values override the caller's, and every other value is its `str()` text |
| Dispatcher.XmlCallParameters | mfabrik/zoho/core.py:169-199 | fails with an attribute error exactly when the connection has no token. Otherwise the form's keys are the caller's, the XML parameter name and the session keys. `authtoken`, `scope` and (when set) `ticket` carry the session's values, overriding the document and the caller. The document is under its name unless a session key overrides it, and the caller's other parameters are their `str()` texts |
| Dispatcher.XmlCallAddsDocument | mfabrik/zoho/core.py:181-183 | the XML call posts the form the plain call would post, plus the serialized document under its parameter name unless a session key of that name overrides it |
| Dispatcher.CallParametersFixedPoint | mfabrik/zoho/core.py:193-199 | passing a built form back in as the parameters, on the same connection, builds the same form |
| Dispatcher.CallParametersSeeOnlyText | mfabrik/zoho/core.py:199 | the form depends on the caller's parameters only through their `str()` texts |
| Dispatcher.IntegerParameterRoundTrips | mfabrik/zoho/core.py:196-199 | an integer parameter that the session does not override arrives as text that reads back as the same integer |
| Responses.FirstErrorMessage | mfabrik/zoho/core.py:235-240 | the message found is the first `message` of the first `error` child that has one, and there is none exactly when no `error` child has a message |
| Responses.CheckSuccessfulXml | mfabrik/zoho/core.py:218-242 | returns `True` exactly when no direct `error` child has a `message` child; otherwise it raises the library's exception with the text of the first message of the first such `error` |
| Responses.CheckSuccessfulXmlExamples | mfabrik/zoho/core.py:234-242 | an error response raises its message's text; a plain result passes |
| Responses.GetConvertedRecords | mfabrik/zoho/core.py:244-254 | fails with an attribute error exactly when the root has no `Contact` or no `Account` child. Otherwise the record holds exactly the two `param` keys, the account's text wins on a shared key, and the contact's text is kept otherwise |
| Responses.FieldMapKeys | mfabrik/zoho/core.py:266-267 | a record's keys are exactly its fields' `val` attributes |
| Responses.FieldMapLastWins | mfabrik/zoho/core.py:266-267 | each field's `val` maps to its text unless a later field has the same `val` |
| Responses.AllDetailsEmpty | mfabrik/zoho/core.py:262-269 | there are no details exactly when no `result` has a `recorddetail` |
| Responses.ResultRecordsPerDetail | mfabrik/zoho/core.py:262-269 | reading records result by result is the same as reading all `recorddetail` elements in document order |
| Responses.ResultRecordsAppend | mfabrik/zoho/core.py:263-268 | the records of two runs of results are the first run's followed by the second's |
| Responses.GetInsertedRecords | mfabrik/zoho/core.py:256-269 | one record per `recorddetail` of a direct `result` child, in document order; the list is empty exactly when no such `result` has a `recorddetail` |
| Responses.InsertedRecordsExample | mfabrik/zoho/core.py:256-269 | a response reporting two inserted ids gives two records, in order, each mapping `Id` to its id |
| Responses.DecodeJson | mfabrik/zoho/core.py:281-298 | the library's exception is raised exactly when the top level is a dictionary whose truthy `response` is a dictionary with a truthy `error`. An attribute error is raised exactly when `.get` meets a non-dictionary. Otherwise the decoded value comes back unchanged |
| Responses.DecodeJsonOnDictionaries | mfabrik/zoho/core.py:292-298 | on dictionaries, decoding returns the value unchanged unless the response reports an error, and then it raises |
| Responses.DecodeJsonExamples | mfabrik/zoho/core.py:289-298 | the documented error response raises, carrying its error; a plain dictionary comes back unchanged |

## Left out

- HTTP transport (`urlencode`, `Request`, `urlopen`): the login body and the call's response are given to the model as parameters, and `do_call` is modelled only up to the form it posts.
- `get_service_name` and `parameter_xml`, which subclasses supply, are given as parameters. The base class's `get_service_name` raises `NotImplementedError`; that error is not modelled.
- Parsing XML text (`fromstring`) and serializing a document (`tostring`): the interpreters take an element tree, and `do_xml_call` takes the serialized text.
- Parsing JSON text (`simplejson.loads`): `decode_json` takes the decoded value, and a decoding error is not modelled.
- Bytes versus text, on several paths: `stringify` encodes each value to UTF-8 bytes, `urlopen(...).read()` returns bytes, and `tostring` returns bytes. The model treats all of them as text. Under Python 3 the first failure on both HTTP paths comes earlier: `urllib.request.Request` is given the `str` that `urlencode` returns, and `urlopen` refuses `str` data with a `TypeError`. The login body's `split("\n")` would raise a `TypeError`. `str()` of the serialized document would give its `b'...'` rendering. At DEBUG log level, `do_call`'s debug line joins a key with its bytes value and raises a `TypeError` on every call.
- Logging, the `print` in `check_successful_xml`, and the assignments to `self.parameters` and `self.parameters_encoded`: below DEBUG level they change no result, and the DEBUG failure is the bytes `TypeError` above. The reads of those attributes in `check_successful_xml` are left out too; they would raise an attribute error when no call was made first.
- Decoded JSON numbers are finite reals. Python's decoder also yields `NaN`, `Infinity` and `-Infinity`, all truthy, so `{"response": {"error": NaN}}` raises in the library; those floats, and decoded strings holding a lone surrogate, are not representable here.
- Python values other than `None`, booleans, integers and strings (floats, containers) as options or parameters. The client passes such values through `str()`, but it also tests the `authtoken` option's truthiness when a connection is built. A falsy float or container token (`0.0`, `[]`, `{}`) is dropped, and a truthy one (`[1]`) is kept, which decides whether `ensure_opened` and `do_call` fail. Neither the renderings nor the truthiness of these values are modelled.
- Responses.DecodeJson: the exception keeps the decoded `error` value instead of the text "Error while calling JSON Zoho api:" followed by `str(error)`, because Python's dictionary rendering is not modelled.
- The `extra_auth_params` option is documented but never read by the code, so there is nothing to model.
- setup.py: packaging metadata, with no logic to model.

=== FILE: dispatcher.dfy ===
/**
 The request side of `Connection`: the form `do_call` and `do_xml_call` post.
 The caller's parameters are copied, the session's `ticket` (when set),
 `authtoken` and `scope` are added over them, and every value is turned into
 its `str()` text (`stringify`). Maps are values here, so the caller's map is
 never changed: each function returns a new one.
 */
module Dispatcher {
  import opened PyValues
  import opened Errors
  import opened Session

  /** `stringify(params)`: the same keys, each value replaced by its `str()`
      text (the UTF-8 encoding of that text into bytes is not modelled). */
  function Stringify(params: map<string, Value>): (r: map<string, string>)
    ensures r.Keys == params.Keys
    ensures forall key :: key in params ==> r[key] == Str(params[key])
  {
    map key | key in params :: Str(params[key])
  }

  /** A map of texts seen as a map of Python strings. */
  function AsValues(texts: map<string, string>): (r: map<string, Value>)
    ensures r.Keys == texts.Keys
    ensures forall key :: key in texts ==> r[key] == StrV(texts[key])
  {
    map key | key in texts :: StrV(texts[key])
  }

  /** Stringifying what is already text changes nothing, so `stringify` is
      idempotent. */
  lemma StringifyIdempotent(params: map<string, Value>)
    ensures Stringify(AsValues(Stringify(params))) == Stringify(params)
  {
  }

  /** The keys `do_call` adds over the caller's. */
  function SessionKeys(c: Connection): set<string> {
    {"authtoken", "scope"} + (if c.ticket.Some? then {"ticket"} else {})
  }

  /** The form `do_call(url, parameters)` posts. Reading `self.authtoken`
      fails when the connection was given no truthy token. */
  function CallParameters(c: Connection, parameters: map<string, Value>): (r: Result<map<string, string>>)
    ensures r.Err? <==> c.authtoken.None?
    ensures r.Err? ==> r.error == AttributeError("authtoken")
    ensures r.Ok? ==> r.value.Keys == parameters.Keys + SessionKeys(c)
    ensures r.Ok? ==> r.value["authtoken"] == Str(c.authtoken.value)
    ensures r.Ok? ==> r.value["scope"] == Str(c.scope)
    ensures r.Ok? && c.ticket.Some? ==> r.value["ticket"] == c.ticket.value
    ensures r.Ok? ==>
              forall key :: key in parameters && key !in SessionKeys(c) ==>
                r.value[key] == Str(parameters[key])
  {
    var withTicket := if c.ticket.Some? then parameters["ticket" := StrV(c.ticket.value)] else parameters;
    match c.authtoken
    case None => Err(AttributeError("authtoken"))
    case Some(token) => Ok(Stringify(withTicket["authtoken" := token]["scope" := c.scope]))
  }

  /** The form `do_xml_call(url, parameters, root)` posts: the serialized
      document is added under the connection's `parameter_xml` name before
      `do_call` adds the session keys, so those still win on a clash. */
  function XmlCallParameters(c: Connection, parameters: map<string, Value>, xmlParameter: string, xml: string)
    : (r: Result<map<string, string>>)
    ensures r.Err? <==> c.authtoken.None?
    ensures r.Err? ==> r.error == AttributeError("authtoken")
    ensures r.Ok? ==> r.value.Keys == parameters.Keys + {xmlParameter} + SessionKeys(c)
    ensures r.Ok? ==> r.value["authtoken"] == Str(c.authtoken.value)
    ensures r.Ok? ==> r.value["scope"] == Str(c.scope)
    ensures r.Ok? && c.ticket.Some? ==> r.value["ticket"] == c.ticket.value
    ensures r.Ok? && xmlParameter !in SessionKeys(c) ==> r.value[xmlParameter] == xml
    ensures r.Ok? ==>
              forall key :: key in parameters && key != xmlParameter && key !in SessionKeys(c) ==>
                r.value[key] == Str(parameters[key])
  {
    CallParameters(c, parameters[xmlParameter := StrV(xml)])
  }

  /** Posting a document adds exactly one entry to the form the same call
      would post without it: the serialized document under its parameter
      name, unless a session key of that name overrides it. */
  lemma XmlCallAddsDocument(c: Connection, parameters: map<string, Value>, xmlParameter: string, xml: string)
    requires c.authtoken.Some?
    ensures var plain := CallParameters(c, parameters).value;
      XmlCallParameters(c, parameters, xmlParameter, xml).value ==
        if xmlParameter in SessionKeys(c) then plain else plain[xmlParameter := xml]
  {
    var plain := CallParameters(c, parameters).value;
    var withXml := XmlCallParameters(c, parameters, xmlParameter, xml).value;
    var expected := if xmlParameter in SessionKeys(c) then plain else plain[xmlParameter := xml];
    assert withXml.Keys == expected.Keys;
    forall key | key in withXml
      ensures withXml[key] == expected[key]
    {
    }
    assert withXml == expected;
  }

  /** A built form is a fixed point: posting it again as the caller's
      parameters, on the same connection, builds the same form. */
  lemma CallParametersFixedPoint(c: Connection, parameters: map<string, Value>)
    requires CallParameters(c, parameters).Ok?
    ensures CallParameters(c, AsValues(CallParameters(c, parameters).value)) == CallParameters(c, parameters)
  {
    var r := CallParameters(c, parameters).value;
    var again := CallParameters(c, AsValues(r)).value;
    assert again.Keys == r.Keys;
    forall key | key in r
      ensures again[key] == r[key]
    {
      if key !in SessionKeys(c) {
        assert AsValues(r)[key] == StrV(r[key]);
      }
    }
    assert again == r;
  }

  /** The form depends on the caller's parameters only through their `str()`
      texts: parameters that print alike give the same form. */
  lemma CallParametersSeeOnlyText(c: Connection, p: map<string, Value>, q: map<string, Value>)
    requires Stringify(p) == Stringify(q)
    ensures CallParameters(c, p) == CallParameters(c, q)
  {
    if c.authtoken.Some? {
      var rp := CallParameters(c, p).value;
      var rq := CallParameters(c, q).value;
      assert p.Keys == Stringify(p).Keys == q.Keys;
      forall key | key in rp
        ensures key in rq && rp[key] == rq[key]
      {
        if key in p && key !in SessionKeys(c) {
          assert Stringify(p)[key] == Stringify(q)[key];
        }
      }
      assert rp == rq;
    }
  }

  /** An integer parameter arrives as decimal text that reads back as the
      same integer. */
  lemma IntegerParameterRoundTrips(c: Connection, parameters: map<string, Value>, key: string, n: int)
    requires CallParameters(c, parameters).Ok?
    requires key in parameters && parameters[key] == IntV(n) && key !in SessionKeys(c)
    ensures IsIntLiteral(CallParameters(c, parameters).value[key])
    ensures ParseInt(CallParameters(c, parameters).value[key]) == n
  {
    StrIntRoundTrip(n);
  }
}

=== FILE: errors.dfy ===
/**
 The failures the client can raise, and the result types that carry them.
 The library has one exception of its own, `ZohoException`; the other
 constructors stand for the Python built-in errors its code lets escape.
 */
module Errors {
  import opened Json

  datatype Option<+T> = None | Some(value: T)

  datatype Error =
    /** `ZohoException(message)`; the message is absent when the library raises
        it with the text of an XML element that has none. */
    | ZohoException(message: Option<string>)
    /** `ZohoException("Error while calling JSON Zoho api:" + str(error))`,
        keeping the decoded `error` value instead of its rendering. */
    | ZohoJsonException(error: JsonValue)
    /** A dictionary lookup `d[key]` on a missing key. */
    | KeyError(key: string)
    /** Reading an attribute the object does not have (`self.authtoken`, or
        `.get` on `None` or on a non-dictionary). */
    | AttributeError(name: string)
    /** `key, value = line.split("=")` on a line with more than one `=`. */
    | UnpackError
  {
    /** True of the library's own exception, as opposed to a built-in error. */
    predicate IsDomain() {
      ZohoException? || ZohoJsonException?
    }
  }

  /** The outcome of an operation that returns a value or raises. */
  datatype Result<+T> = Ok(value: T) | Err(error: Error)

  /** The outcome of an operation that returns nothing or raises. */
  datatype Outcome = Pass | Fail(error: Error)
}

=== FILE: json.dfy ===
/**
 An already decoded JSON document, as the client receives it from the JSON
 decoder: dictionaries, lists and scalars. Parsing JSON text is outside the model.
 */
module Json {

  /** A decoded JSON value; numbers are kept as reals, objects as maps (a key
      repeated in the text keeps its last value, as the decoder does). */
  datatype JsonValue =
    | JNull
    | JBool(b: bool)
    | JNumber(n: real)
    | JString(s: string)
    | JArray(items: seq<JsonValue>)
    | JObject(fields: map<string, JsonValue>)

  /** Python truthiness of the decoded value: `None`, `False`, `0`, `""`, `[]`
      and `{}` are false. */
  predicate Truthy(j: JsonValue) {
    match j
    case JNull => false
    case JBool(b) => b
    case JNumber(n) => n != 0.0
    case JString(s) => s != ""
    case JArray(items) => |items| > 0
    case JObject(fields) => |fields| > 0
  }

  /** `d.get(key, None)` on a decoded dictionary. */
  function GetField(j: JsonValue, key: string): (r: JsonValue)
    requires j.JObject?
    ensures key !in j.fields ==> r == JNull
    ensures key in j.fields ==> r == j.fields[key]
  {
    if key in j.fields then j.fields[key] else JNull
  }
}

=== FILE: responses.dfy ===
/**
 The response interpreters: `check_successful_xml`, `get_converted_records`
 and `get_inserted_records` over a parsed XML document, and `decode_json` over
 a decoded JSON value.
 */
module Responses {
  import opened Errors
  import opened Json
  import opened Xml

  /** A record as the interpreters build it: a dictionary from an attribute's
      value (`None` when the attribute is missing) to an element's text
      (`None` when it has none). */
  type Record = map<Option<string>, Option<string>>

  /** `error.findall("message")`. */
  function Messages(error: Element): seq<Element> {
    FindAll(error.children, "message")
  }

  /** An `error` child with at least one `message` child. */
  predicate Reports(e: Element) {
    e.tag == "error" && Messages(e) != []
  }

  /** The loop of `check_successful_xml` over the root's children: the first
      `message` child of the first `error` child that has one. */
  function FirstErrorMessage(children: seq<Element>): (m: Option<Element>)
    ensures m.None? <==> forall i :: 0 <= i < |children| ==> !Reports(children[i])
    ensures m.Some? ==>
              exists i :: && 0 <= i < |children| && Reports(children[i])
                          && m.value == Messages(children[i])[0]
                          && forall j :: 0 <= j < i ==> !Reports(children[j])
    decreases |children|
  {
    if |children| == 0 then None
    else if Reports(children[0]) then Some(Messages(children[0])[0])
    else
      var m := FirstErrorMessage(children[1..]);
      assert forall i :: 0 < i < |children| ==> children[i] == children[1..][i - 1];
      m
  }

  /** `check_successful_xml(response)`: true when no direct `error` child of
      the root has a `message` child; otherwise the library's exception with
      the text of the first `message` of the first `error` that has one. */
  function CheckSuccessfulXml(root: Element): (r: Result<bool>)
    ensures r.Ok? ==> r.value
    ensures r.Ok? <==>
              forall i :: 0 <= i < |root.children| && root.children[i].tag == "error" ==>
                Messages(root.children[i]) == []
    ensures r.Err? ==>
              exists i :: && 0 <= i < |root.children| && root.children[i].tag == "error"
                          && Messages(root.children[i]) != []
                          && r.error == ZohoException(Messages(root.children[i])[0].text)
                          && forall j :: 0 <= j < i && root.children[j].tag == "error" ==>
                               Messages(root.children[j]) == []
  {
    match FirstErrorMessage(root.children)
    case None => Ok(true)
    case Some(message) => Err(ZohoException(message.text))
  }

  /** `get_converted_records(response)`: the `param` attribute of the root's
      first `Contact` child and of its first `Account` child, each mapped to
      that element's text (the account's entry wins when both have the same
      key). A missing child is `None`, and calling `.get` on it fails. */
  function GetConvertedRecords(root: Element): (r: Result<Record>)
    ensures r.Err? <==> Find(root.children, "Contact").None? || Find(root.children, "Account").None?
    ensures r.Err? ==> r.error == AttributeError("get")
    ensures r.Ok? ==>
              var contact := Find(root.children, "Contact").value;
              var account := Find(root.children, "Account").value;
              && r.value.Keys == {GetAttribute(contact, "param"), GetAttribute(account, "param")}
              && r.value[GetAttribute(account, "param")] == account.text
              && (GetAttribute(contact, "param") != GetAttribute(account, "param") ==>
                    r.value[GetAttribute(contact, "param")] == contact.text)
  {
    match Find(root.children, "Contact")
    case None => Err(AttributeError("get"))
    case Some(contact) =>
      match Find(root.children, "Account")
      case None => Err(AttributeError("get"))
      case Some(account) =>
        Ok(map[GetAttribute(contact, "param") := contact.text][GetAttribute(account, "param") := account.text])
  }

  /** `fl.get("val")`, the key a field element contributes. */
  function FieldKey(field: Element): Option<string> {
    GetAttribute(field, "val")
  }

  /** The loop over `FL` elements in `get_inserted_records`. */
  function FieldMap(fields: seq<Element>): Record
    decreases |fields|
  {
    if |fields| == 0 then map[]
    else
      var n := |fields| - 1;
      FieldMap(fields[..n])[FieldKey(fields[n]) := fields[n].text]
  }

  /** The record's keys are exactly the field elements' `val` attributes. */
  lemma {:induction false} FieldMapKeys(fields: seq<Element>)
    ensures forall i :: 0 <= i < |fields| ==> FieldKey(fields[i]) in FieldMap(fields)
    ensures forall key :: key in FieldMap(fields) ==> exists i :: 0 <= i < |fields| && FieldKey(fields[i]) == key
    decreases |fields|
  {
    if |fields| > 0 {
      var n := |fields| - 1;
      var init := fields[..n];
      FieldMapKeys(init);
      assert forall i :: 0 <= i < n ==> init[i] == fields[i];
      forall key | key in FieldMap(fields)
        ensures exists i :: 0 <= i < |fields| && FieldKey(fields[i]) == key
      {
        if key != FieldKey(fields[n]) {
          var i :| 0 <= i < n && FieldKey(init[i]) == key;
          assert FieldKey(fields[i]) == key;
        }
      }
    }
  }

  /** A field element's `val` attribute maps to its text unless a later field
      element has the same attribute, which then overwrites it. */
  lemma {:induction false} FieldMapLastWins(fields: seq<Element>, i: nat)
    requires i < |fields|
    requires forall j :: i < j < |fields| ==> FieldKey(fields[j]) != FieldKey(fields[i])
    ensures FieldKey(fields[i]) in FieldMap(fields)
    ensures FieldMap(fields)[FieldKey(fields[i])] == fields[i].text
    decreases |fields|
  {
    var n := |fields| - 1;
    if i < n {
      var init := fields[..n];
      assert init[i] == fields[i];
      forall j | i < j < n
        ensures FieldKey(init[j]) != FieldKey(init[i])
      {
        assert init[j] == fields[j];
      }
      FieldMapLastWins(init, i);
    }
  }

  /** `record.findall("FL")`, read into a record. */
  function RecordOf(detail: Element): Record {
    FieldMap(FindAll(detail.children, "FL"))
  }

  /** `result.findall("recorddetail")`. */
  function Details(result: Element): seq<Element> {
    FindAll(result.children, "recorddetail")
  }

  /** One record per `recorddetail`, in order. */
  function DetailRecords(details: seq<Element>): (r: seq<Record>)
    ensures |r| == |details|
    ensures forall i :: 0 <= i < |details| ==> r[i] == RecordOf(details[i])
  {
    seq(|details|, i requires 0 <= i < |details| => RecordOf(details[i]))
  }

  /** The loops of `get_inserted_records` over the `result` elements and,
      within each, its `recorddetail` elements. */
  function ResultRecords(results: seq<Element>): seq<Record>
    decreases |results|
  {
    if |results| == 0 then [] else DetailRecords(Details(results[0])) + ResultRecords(results[1..])
  }

  /** Every `recorddetail` element under the given `result` elements, in
      document order. */
  function AllDetails(results: seq<Element>): seq<Element>
    decreases |results|
  {
    if |results| == 0 then [] else Details(results[0]) + AllDetails(results[1..])
  }

  /** There are no details exactly when no `result` has one. */
  lemma {:induction false} AllDetailsEmpty(results: seq<Element>)
    ensures AllDetails(results) == [] <==> forall e :: e in results ==> Details(e) == []
    decreases |results|
  {
    if |results| > 0 {
      AllDetailsEmpty(results[1..]);
      assert forall e :: e in results <==> e == results[0] || e in results[1..];
    }
  }

  /** Reading the records result by result gives one record per detail
      element, in document order. */
  lemma {:induction false} ResultRecordsPerDetail(results: seq<Element>)
    ensures ResultRecords(results) == DetailRecords(AllDetails(results))
    decreases |results|
  {
    if |results| > 0 {
      ResultRecordsPerDetail(results[1..]);
      var a := Details(results[0]);
      var b := AllDetails(results[1..]);
      assert DetailRecords(a) + DetailRecords(b) == DetailRecords(a + b) by {
        forall i | 0 <= i < |a| + |b|
          ensures (DetailRecords(a) + DetailRecords(b))[i] == DetailRecords(a + b)[i]
        {
          if i >= |a| {
            assert (a + b)[i] == b[i - |a|];
          }
        }
      }
    }
  }

  /** `get_inserted_records(response)`: one record per `recorddetail` child
      of a `result` child of the root, in document order, and none when
      there are no such elements. */
  function GetInsertedRecords(root: Element): (r: seq<Record>)
    ensures r == [] <==> forall e :: e in root.children && e.tag == "result" ==> Details(e) == []
    ensures var details := AllDetails(FindAll(root.children, "result"));
      && |r| == |details|
      && forall k :: 0 <= k < |r| ==> r[k] == RecordOf(details[k])
  {
    var results := FindAll(root.children, "result");
    ResultRecordsPerDetail(results);
    AllDetailsEmpty(results);
    ResultRecords(results)
  }

  /** The records of two runs of `result` elements are the first run's
      followed by the second's. */
  lemma {:induction false} ResultRecordsAppend(a: seq<Element>, b: seq<Element>)
    ensures ResultRecords(a + b) == ResultRecords(a) + ResultRecords(b)
    decreases |a|
  {
    if |a| == 0 {
      assert a + b == b;
    } else {
      assert (a + b)[1..] == a[1..] + b;
      ResultRecordsAppend(a[1..], b);
    }
  }

  /** The response shape the service sends after inserting two records,
      each reported by its `Id` field, gives two records in order. */
  lemma InsertedRecordsExample(id1: string, id2: string)
    ensures var fl1 := Element("FL", map["val" := "Id"], Some(id1), []);
            var fl2 := Element("FL", map["val" := "Id"], Some(id2), []);
            var detail1 := Element("recorddetail", map[], None, [fl1]);
            var detail2 := Element("recorddetail", map[], None, [fl2]);
            var result := Element("result", map[], None, [detail1, detail2]);
            GetInsertedRecords(Element("response", map[], None, [result])) ==
              [map[Some("Id") := Some(id1)], map[Some("Id") := Some(id2)]]
  {
    var fl1 := Element("FL", map["val" := "Id"], Some(id1), []);
    var fl2 := Element("FL", map["val" := "Id"], Some(id2), []);
    var detail1 := Element("recorddetail", map[], None, [fl1]);
    var detail2 := Element("recorddetail", map[], None, [fl2]);
    var result := Element("result", map[], None, [detail1, detail2]);
    assert FindAll([result], "result") == [result];
    assert Details(result) == [detail1, detail2];
    assert AllDetails([result]) == [detail1, detail2];
    assert FindAll([fl1], "FL") == [fl1];
    assert FindAll([fl2], "FL") == [fl2];
    assert [fl1][..0] == [] && [fl2][..0] == [];
    assert FieldKey(fl1) == Some("Id") && FieldKey(fl2) == Some("Id");
    assert FieldMap([fl1]) == FieldMap([])[FieldKey(fl1) := fl1.text];
    assert FieldMap([fl2]) == FieldMap([])[FieldKey(fl2) := fl2.text];
    assert RecordOf(detail1) == map[Some("Id") := Some(id1)];
    assert RecordOf(detail2) == map[Some("Id") := Some(id2)];
  }

  /** An error response raises its message's text; a plain result passes. */
  lemma CheckSuccessfulXmlExamples(text: string)
    ensures var message := Element("message", map[], Some(text), []);
            var error := Element("error", map[], None, [message]);
            CheckSuccessfulXml(Element("response", map[], None, [error])) == Err(ZohoException(Some(text)))
    ensures CheckSuccessfulXml(Element("response", map[], None, [Element("result", map[], None, [])])) == Ok(true)
  {
    var message := Element("message", map[], Some(text), []);
    var error := Element("error", map[], None, [message]);
    assert Messages(error) == [message];
  }

  /** The response carries a service error: the top level is a dictionary
      whose truthy `response` is a dictionary with a truthy `error`. */
  predicate ReportsServiceError(data: JsonValue) {
    && data.JObject? && "response" in data.fields
    && var response := data.fields["response"];
    && response.JObject? && |response.fields| > 0
    && "error" in response.fields && Truthy(response.fields["error"])
  }

  /** `decode_json(json_data)` on the decoded value: the library's exception
      carrying the error when the response reports one; an attribute error
      when `.get` is called on something that is not a dictionary (a
      non-dictionary top level, or a truthy non-dictionary `response`);
      otherwise the value itself, unchanged. */
  function DecodeJson(data: JsonValue): (r: Result<JsonValue>)
    ensures r.Ok? ==> r.value == data
    ensures r.Err? && r.error.IsDomain() <==> ReportsServiceError(data)
    ensures ReportsServiceError(data) ==> r == Err(ZohoJsonException(data.fields["response"].fields["error"]))
    ensures r.Err? && !r.error.IsDomain() <==>
              || !data.JObject?
              || ("response" in data.fields && Truthy(data.fields["response"]) && !data.fields["response"].JObject?)
    ensures r.Err? && !r.error.IsDomain() ==> r.error == AttributeError("get")
  {
    if !data.JObject? then Err(AttributeError("get"))
    else
      var response := GetField(data, "response");
      if !Truthy(response) then Ok(data)
      else if !response.JObject? then Err(AttributeError("get"))
      else
        var error := GetField(response, "error");
        if Truthy(error) then Err(ZohoJsonException(error)) else Ok(data)
  }

  /** For a dictionary response, decoding either returns the value unchanged
      or raises the library's exception, and it raises exactly when the
      response reports an error. */
  lemma DecodeJsonOnDictionaries(data: JsonValue)
    requires data.JObject?
    requires "response" in data.fields ==> data.fields["response"].JObject? || !Truthy(data.fields["response"])
    ensures DecodeJson(data) == if ReportsServiceError(data)
                                then Err(ZohoJsonException(data.fields["response"].fields["error"]))
                                else Ok(data)
  {
  }

  /** `{"response": {"error": {"code": 4500, "message": "x"}}}` raises;
      `{"foo": 1}` comes back unchanged. */
  lemma DecodeJsonExamples()
    ensures var error := JObject(map["code" := JNumber(4500.0), "message" := JString("x")]);
            DecodeJson(JObject(map["response" := JObject(map["error" := error])])) == Err(ZohoJsonException(error))
    ensures DecodeJson(JObject(map["foo" := JNumber(1.0)])) == Ok(JObject(map["foo" := JNumber(1.0)]))
  {
    var error := JObject(map["code" := JNumber(4500.0), "message" := JString("x")]);
    assert "code" in error.fields;
    assert "error" in map["error" := error];
  }
}

=== FILE: session.dfy ===
/**
 The session half of `Connection`: which credentials a connection keeps
 (`__init__`), the login request and the ticket it yields (`_create_ticket`,
 `open`), and the check that a password session has been opened
 (`ensure_opened`). A connection is an immutable record here; `open` returns
 the updated record instead of assigning `self.ticket`.
 */
module Session {
  import opened PyValues
  import opened Errors
  import opened Ticket

  /** The `auth_url` option's default. */
  const DefaultAuthUrl: string := "https://accounts.zoho.com/login"

  /** The URL `_create_ticket` posts to; it is fixed in the code, whatever
      `auth_url` says. */
  const LoginUrl: string := "https://accounts.zoho.com/login"

  /** A username and password, kept only as a pair. */
  datatype Credentials = Credentials(username: Value, password: Value)

  /** The attributes a connection has: `login` stands for the `username` and
      `password` attributes (present together or not at all), `authtoken` is
      absent unless a truthy token was given, `ticket` is `None` until the
      connection is opened. */
  datatype Connection = Connection(
    login: Option<Credentials>,
    authtoken: Option<Value>,
    authUrl: Value,
    scope: Value,
    ticket: Option<string>)

  /** What every constructed connection satisfies. It records what the
      constructor produces and what `open()` keeps; the library's operations
      do not depend on it, so none of them requires it. */
  predicate Valid(c: Connection) {
    && c.scope != NoneV
    && (c.authtoken.Some? ==> Truthy(c.authtoken.value))
    && (c.login.Some? ==> c.login.value.username != NoneV && c.login.value.password != NoneV)
  }

  /** `options.update(kwargs)` followed by `options[name]`. */
  function OptionValue(kwargs: map<string, Value>, name: string): Value {
    if name in kwargs then kwargs[name]
    else if name == "auth_url" then StrV(DefaultAuthUrl)
    else NoneV
  }

  /** `Connection(**kwargs)`: a missing or `None` scope is refused; a username
      and password are kept only when both are given (not `None`); a token is
      kept only when truthy; the ticket starts absent. Other keyword arguments
      are ignored. */
  function Connect(kwargs: map<string, Value>): (r: Result<Connection>)
    ensures r.Err? <==> "scope" !in kwargs || kwargs["scope"] == NoneV
    ensures r.Err? ==> r.error == ZohoException(Some("No Scope"))
    ensures r.Ok? ==> Valid(r.value) && r.value.ticket == None
    ensures r.Ok? ==> r.value.scope == kwargs["scope"]
    ensures r.Ok? ==>
              (r.value.login.Some? <==>
                 "username" in kwargs && kwargs["username"] != NoneV &&
                 "password" in kwargs && kwargs["password"] != NoneV)
    ensures r.Ok? && r.value.login.Some? ==>
              r.value.login.value == Credentials(kwargs["username"], kwargs["password"])
    ensures r.Ok? ==>
              (r.value.authtoken.Some? <==> "authtoken" in kwargs && Truthy(kwargs["authtoken"]))
    ensures r.Ok? && r.value.authtoken.Some? ==> r.value.authtoken.value == kwargs["authtoken"]
    ensures r.Ok? ==> r.value.authUrl == (if "auth_url" in kwargs then kwargs["auth_url"] else StrV(DefaultAuthUrl))
  {
    var username := OptionValue(kwargs, "username");
    var password := OptionValue(kwargs, "password");
    var authtoken := OptionValue(kwargs, "authtoken");
    var scope := OptionValue(kwargs, "scope");
    if scope == NoneV then Err(ZohoException(Some("No Scope")))
    else
      Ok(Connection(
        login := if username != NoneV && password != NoneV then Some(Credentials(username, password)) else None,
        authtoken := if Truthy(authtoken) then Some(authtoken) else None,
        authUrl := OptionValue(kwargs, "auth_url"),
        scope := scope,
        ticket := None))
  }

  /** The form `_create_ticket` posts to `LoginUrl`. */
  datatype LoginRequest = LoginRequest(url: string, form: map<string, Value>)

  /** The login request for the given service name (the subclass's
      `get_service_name()`); a connection without a username has no such
      attribute to send. */
  function LoginRequestFor(c: Connection, serviceName: string): (r: Result<LoginRequest>)
    ensures r.Err? <==> c.login.None?
    ensures r.Err? ==> r.error == AttributeError("username")
    ensures r.Ok? ==> r.value.url == LoginUrl
    ensures r.Ok? ==> r.value.form.Keys == {"servicename", "FROM_AGENT", "LOGIN_ID", "PASSWORD"}
    ensures r.Ok? ==>
              && r.value.form["servicename"] == StrV(serviceName)
              && r.value.form["FROM_AGENT"] == StrV("true")
              && r.value.form["LOGIN_ID"] == c.login.value.username
              && r.value.form["PASSWORD"] == c.login.value.password
  {
    match c.login
    case None => Err(AttributeError("username"))
    case Some(cred) =>
      Ok(LoginRequest(LoginUrl, map[
        "servicename" := StrV(serviceName),
        "FROM_AGENT" := StrV("true"),
        "LOGIN_ID" := cred.username,
        "PASSWORD" := cred.password]))
  }

  /** The login request does not depend on the `auth_url` option. */
  lemma LoginIgnoresAuthUrl(c: Connection, serviceName: string, authUrl: Value)
    ensures LoginRequestFor(c.(authUrl := authUrl), serviceName) == LoginRequestFor(c, serviceName)
  {
  }

  /** `_create_ticket()`, given the body the login endpoint answered. */
  function CreateTicket(c: Connection, serviceName: string, body: string): (r: Result<string>)
    ensures c.login.None? ==> r == Err(AttributeError("username"))
    ensures c.login.Some? && ParseTicketResponse(body).Err? ==> r == Err(ParseTicketResponse(body).error)
    ensures c.login.Some? && ParseTicketResponse(body).Ok? ==> r == DecideTicket(ParseTicketResponse(body).value)
    ensures r.Ok? ==>
              && ParseTicketResponse(body).Ok?
              && var fields := ParseTicketResponse(body).value;
              && "WARNING" in fields && fields["WARNING"] == "null"
              && "RESULT" in fields && fields["RESULT"] == "TRUE"
              && "TICKET" in fields && r.value == fields["TICKET"]
  {
    match LoginRequestFor(c, serviceName)
    case Err(e) => Err(e)
    case Ok(_) =>
      match ParseTicketResponse(body)
      case Err(e) => Err(e)
      case Ok(fields) => DecideTicket(fields)
  }

  /** `open()`: on success the connection holds the new ticket and nothing
      else about it changes; on failure the caller keeps `c` as it was. */
  function Open(c: Connection, serviceName: string, body: string): (r: Result<Connection>)
    ensures r.Ok? <==> CreateTicket(c, serviceName, body).Ok?
    ensures r.Err? ==> r.error == CreateTicket(c, serviceName, body).error
    ensures r.Ok? ==> r.value.ticket == Some(CreateTicket(c, serviceName, body).value)
    ensures r.Ok? ==> r.value.(ticket := c.ticket) == c
  {
    match CreateTicket(c, serviceName, body)
    case Err(e) => Err(e)
    case Ok(t) => Ok(c.(ticket := Some(t)))
  }

  /** `ensure_opened()`: fails only for a connection that has a username and
      password, no token, and no ticket yet. */
  function EnsureOpened(c: Connection): (o: Outcome)
    ensures o.Fail? <==> c.login.Some? && c.authtoken.None? && c.ticket.None?
    ensures o.Fail? ==> o.error == ZohoException(Some("Need to initialize Zoho ticket first"))
  {
    if c.login.Some? && c.authtoken.None? then
      if c.ticket.None? then Fail(ZohoException(Some("Need to initialize Zoho ticket first"))) else Pass
    else Pass
  }

  /** Opening keeps a connection valid. */
  lemma OpenPreservesValid(c: Connection, serviceName: string, body: string)
    requires Valid(c)
    requires Open(c, serviceName, body).Ok?
    ensures Valid(Open(c, serviceName, body).value)
  {
  }

  /** After a successful `open()`, `ensure_opened()` passes. */
  lemma OpenedConnectionPasses(c: Connection, serviceName: string, body: string)
    requires Open(c, serviceName, body).Ok?
    ensures EnsureOpened(Open(c, serviceName, body).value) == Pass
  {
  }

  /** A freshly constructed connection fails `ensure_opened()` exactly when it
      was given a username and password and no truthy token. */
  lemma FreshConnectionNeedsOpen(kwargs: map<string, Value>)
    requires Connect(kwargs).Ok?
    ensures EnsureOpened(Connect(kwargs).value).Fail? <==>
              && "username" in kwargs && kwargs["username"] != NoneV
              && "password" in kwargs && kwargs["password"] != NoneV
              && !("authtoken" in kwargs && Truthy(kwargs["authtoken"]))
  {
  }

  /** A connection with a truthy token never fails `ensure_opened()`, opened
      or not. */
  lemma TokenConnectionPasses(c: Connection)
    requires c.authtoken.Some?
    ensures EnsureOpened(c) == Pass
  {
  }

  /** A login response whose warning is `null`, whose result is `TRUE` and
      which carries a ticket opens the connection with exactly that ticket. */
  lemma OpenStoresTicket(c: Connection, serviceName: string, body: string)
    requires c.login.Some?
    requires ParseTicketResponse(body).Ok?
    requires var fields := ParseTicketResponse(body).value;
      && "WARNING" in fields && fields["WARNING"] == "null"
      && "RESULT" in fields && fields["RESULT"] == "TRUE"
      && "TICKET" in fields
    ensures Open(c, serviceName, body) == Ok(c.(ticket := Some(ParseTicketResponse(body).value["TICKET"])))
  {
  }

  /** A login response whose warning is not `null` makes `open()` fail with
      the library's exception quoting the warning, whatever its result says. */
  lemma WarningFailsOpen(c: Connection, serviceName: string, body: string)
    requires c.login.Some?
    requires ParseTicketResponse(body).Ok?
    requires var fields := ParseTicketResponse(body).value;
      "WARNING" in fields && fields["WARNING"] != "null"
    ensures Open(c, serviceName, body) ==
              Err(ZohoException(Some("Could not auth:" + ParseTicketResponse(body).value["WARNING"])))
  {
  }
}

=== FILE: text.dfy ===
/**
 The Python string operations the ticket parser relies on: `str.split` with a
 one-character separator, `str.startswith` and `str.strip`. `sep.join` is
 defined only to state that splitting can be undone; the parser never calls it.
 */
module Text {

  /** Python's `str.isspace` for one character. */
  predicate IsSpace(c: char) {
    || '\t' <= c <= '\r'
    || '\U{1C}' <= c <= '\U{1F}'
    || c == ' '
    || c == '\U{85}'
    || c == '\U{A0}'
    || c == '\U{1680}'
    || '\U{2000}' <= c <= '\U{200A}'
    || c == '\U{2028}'
    || c == '\U{2029}'
    || c == '\U{202F}'
    || c == '\U{205F}'
    || c == '\U{3000}'
  }

  /** Every character of `s` is whitespace (true of the empty string). */
  predicate AllSpace(s: string) {
    forall i :: 0 <= i < |s| ==> IsSpace(s[i])
  }

  /** `s.startswith(prefix)`. */
  predicate StartsWith(s: string, prefix: string) {
    |prefix| <= |s| && s[..|prefix|] == prefix
  }

  /** `s.lstrip()`. */
  function StripLeft(s: string): string
    decreases |s|
  {
    if |s| > 0 && IsSpace(s[0]) then StripLeft(s[1..]) else s
  }

  /** `s.rstrip()`. */
  function StripRight(s: string): string
    decreases |s|
  {
    if |s| > 0 && IsSpace(s[|s| - 1]) then StripRight(s[..|s| - 1]) else s
  }

  /** `s.strip()`. */
  function Strip(s: string): string {
    StripRight(StripLeft(s))
  }

  /** `lstrip` keeps a suffix, drops only whitespace, and stops at the first
      non-whitespace character. */
  lemma {:induction false} StripLeftMeaning(s: string)
    ensures var r := StripLeft(s);
      && |r| <= |s| && r == s[|s| - |r|..]
      && AllSpace(s[..|s| - |r|])
      && (r != [] ==> !IsSpace(r[0]))
    decreases |s|
  {
    if |s| > 0 && IsSpace(s[0]) {
      StripLeftMeaning(s[1..]);
    }
  }

  /** `rstrip` keeps a prefix, drops only whitespace, and stops at the last
      non-whitespace character. */
  lemma {:induction false} StripRightMeaning(s: string)
    ensures var r := StripRight(s);
      && |r| <= |s| && r == s[..|r|]
      && AllSpace(s[|r|..])
      && (r != [] ==> !IsSpace(r[|r| - 1]))
    decreases |s|
  {
    if |s| > 0 && IsSpace(s[|s| - 1]) {
      var init := s[..|s| - 1];
      StripRightMeaning(init);
      var r := StripRight(init);
      assert r == s[..|r|];
      assert s[|r|..] == init[|r|..] + [s[|s| - 1]];
    }
  }

  /** `s.strip() == ""` holds exactly of the whitespace-only strings. */
  lemma StripEmptyIffAllSpace(s: string)
    ensures Strip(s) == "" <==> AllSpace(s)
  {
    StripLeftMeaning(s);
    StripRightMeaning(StripLeft(s));
  }

  /** `s.split(sep)`: the pieces between the occurrences of `sep`; there is
      always at least one piece. */
  function Split(s: string, sep: char): (parts: seq<string>)
    ensures |parts| >= 1
    decreases |s|
  {
    if |s| == 0 then [""]
    else
      var rest := Split(s[1..], sep);
      if s[0] == sep then [""] + rest
      else [[s[0]] + rest[0]] + rest[1..]
  }

  /** `sep.join(parts)`. */
  function Join(parts: seq<string>, sep: char): string
    requires |parts| >= 1
    decreases |parts|
  {
    if |parts| == 1 then parts[0] else parts[0] + [sep] + Join(parts[1..], sep)
  }

  /** No piece of a split contains the separator. */
  lemma {:induction false} SplitPieces(s: string, sep: char)
    ensures forall i :: 0 <= i < |Split(s, sep)| ==> sep !in Split(s, sep)[i]
    decreases |s|
  {
    if |s| > 0 {
      SplitPieces(s[1..], sep);
    }
  }

  /** Joining the pieces of a split gives back the original string. */
  lemma {:induction false} JoinSplit(s: string, sep: char)
    ensures Join(Split(s, sep), sep) == s
    decreases |s|
  {
    if |s| > 0 {
      JoinSplit(s[1..], sep);
      var rest := Split(s[1..], sep);
      if s[0] != sep && |rest| > 1 {
        assert ([[s[0]] + rest[0]] + rest[1..])[1..] == rest[1..];
      }
    }
  }

  /** A string without the separator splits into itself alone. */
  lemma {:induction false} SplitNoSeparator(s: string, sep: char)
    requires sep !in s
    ensures Split(s, sep) == [s]
    decreases |s|
  {
    if |s| > 0 {
      assert sep !in s[1..];
      SplitNoSeparator(s[1..], sep);
      assert [s[0]] + s[1..] == s;
    }
  }

  /** Splitting at the first separator: the piece before it comes first. */
  lemma {:induction false} SplitFirstSeparator(a: string, sep: char, t: string)
    requires sep !in a
    ensures Split(a + [sep] + t, sep) == [a] + Split(t, sep)
    decreases |a|
  {
    if |a| > 0 {
      assert (a + [sep] + t)[1..] == a[1..] + [sep] + t;
      assert sep !in a[1..];
      SplitFirstSeparator(a[1..], sep, t);
      assert [a[0]] + a[1..] == a;
    }
  }

  /** Splitting a join of separator-free pieces gives back the pieces. */
  lemma {:induction false} SplitJoin(parts: seq<string>, sep: char)
    requires |parts| >= 1
    requires forall i :: 0 <= i < |parts| ==> sep !in parts[i]
    ensures Split(Join(parts, sep), sep) == parts
    decreases |parts|
  {
    if |parts| == 1 {
      SplitNoSeparator(parts[0], sep);
    } else {
      SplitJoin(parts[1..], sep);
      SplitFirstSeparator(parts[0], sep, Join(parts[1..], sep));
    }
  }
}

=== FILE: ticket.dfy ===
/**
 The login handshake's response: a plain-text body of `KEY=VALUE` lines, read
 into a dictionary (`_parse_ticket_response`), and the decision on its
 `WARNING`, `RESULT` and `TICKET` fields that yields the session ticket
 (`_create_ticket`).
 */
module Ticket {
  import opened Text
  import opened Errors

  /** How the parser treats one line of the body. */
  datatype Line =
    | Comment                               // starts with `#`: skipped
    | Blank                                 // whitespace only: skipped
    | Pair(key: string, value: string)      // exactly one `=`: an entry
    | NoSeparator                           // no `=`: the library's error
    | ExtraSeparators                       // two or more `=`: an unpacking error
  {
    predicate IsBad() {
      NoSeparator? || ExtraSeparators?
    }
  }

  /** The treatment of one line, tested in the order the parser tests it:
      `startswith("#")`, then `strip() == ""`, then `"=" in line`, then the
      number of pieces `split("=")` yields. */
  function ClassifyLine(line: string): Line {
    if StartsWith(line, "#") then Comment
    else if Strip(line) == "" then Blank
    else if '=' !in line then NoSeparator
    else
      var parts := Split(line, '=');
      if |parts| == 2 then Pair(parts[0], parts[1]) else ExtraSeparators
  }

  /** What each treatment means for the line: comments start with `#`,
      blank lines are whitespace only, an entry is the text on either side of
      the line's only `=`, and the unpacking error comes from a line with two
      or more `=`. */
  lemma ClassifyLineMeaning(line: string)
    ensures var k := ClassifyLine(line);
      && (k.Comment? <==> StartsWith(line, "#"))
      && (k.Blank? <==> !StartsWith(line, "#") && AllSpace(line))
      && (k.NoSeparator? <==> !StartsWith(line, "#") && !AllSpace(line) && '=' !in line)
      && (k.Pair? ==> line == k.key + "=" + k.value && '=' !in k.key && '=' !in k.value)
      && (k.ExtraSeparators? ==>
            exists i :: 0 <= i < |line| && line[i] == '=' && '=' in line[i + 1..])
  {
    StripEmptyIffAllSpace(line);
    if !StartsWith(line, "#") && Strip(line) != "" && '=' in line {
      var parts := Split(line, '=');
      JoinSplit(line, '=');
      SplitPieces(line, '=');
      if |parts| > 2 {
        assert line == parts[0] + "=" + (parts[1] + "=" + Join(parts[2..], '='));
        assert line[|parts[0]|] == '=';
        assert line[|parts[0]| + 1 + |parts[1]|] == '=';
      }
    }
  }

  /** A line that is not a comment and holds exactly one `=` is read as the
      entry `key` -> `value` on either side of it. */
  lemma ClassifyPair(key: string, value: string)
    requires '=' !in key && '=' !in value
    requires key == [] || key[0] != '#'
    ensures ClassifyLine(key + "=" + value) == Pair(key, value)
  {
    var line := key + "=" + value;
    assert !StartsWith(line, "#") by {
      assert line[..1] == [line[0]];
    }
    assert line[|key|] == '=';
    assert !AllSpace(line) by {
      assert !IsSpace(line[|key|]);
    }
    StripEmptyIffAllSpace(line);
    SplitFirstSeparator(key, '=', value);
    SplitNoSeparator(value, '=');
    assert Split(line, '=') == [key, value];
  }

  /** The exception a bad line raises; `data` is the whole body, which the
      library's message quotes. */
  function BadLineError(k: Line, data: string): (e: Error)
    requires k.IsBad()
    ensures k.NoSeparator? ==> e.IsDomain()
    ensures k.ExtraSeparators? ==> !e.IsDomain()
  {
    if k.NoSeparator? then ZohoException(Some("Bad ticket data:" + data)) else UnpackError
  }

  /** Every line of the body, classified. */
  function ClassifyAll(lines: seq<string>): (ks: seq<Line>)
    ensures |ks| == |lines|
    ensures forall i :: 0 <= i < |lines| ==> ks[i] == ClassifyLine(lines[i])
  {
    seq(|lines|, i requires 0 <= i < |lines| => ClassifyLine(lines[i]))
  }

  /** The loop of `_parse_ticket_response` over the classified lines `ks`:
      the dictionary built from the lines so far, or the exception of the
      first bad line. */
  function ParseLines(ks: seq<Line>, data: string): Result<map<string, string>>
    decreases |ks|
  {
    if |ks| == 0 then Ok(map[])
    else
      match ParseLines(ks[..|ks| - 1], data)
      case Err(e) => Err(e)
      case Ok(fields) =>
        var k := ks[|ks| - 1];
        if k.Pair? then Ok(fields[k.key := k.value])
        else if k.IsBad() then Err(BadLineError(k, data))
        else Ok(fields)
  }

  /** `_parse_ticket_response(data)`: the body split at every newline. */
  function ParseTicketResponse(data: string): Result<map<string, string>> {
    ParseLines(ClassifyAll(Split(data, '\n')), data)
  }

  /** Line `i` is an entry for `key`. */
  predicate Defines(ks: seq<Line>, i: int, key: string)
    requires 0 <= i < |ks|
  {
    ks[i].Pair? && ks[i].key == key
  }

  /** No line is bad. */
  predicate WellFormed(ks: seq<Line>) {
    forall i :: 0 <= i < |ks| ==> !ks[i].IsBad()
  }

  /** Parsing succeeds exactly when no line is bad. */
  lemma {:induction false} ParseSucceedsIffWellFormed(ks: seq<Line>, data: string)
    ensures ParseLines(ks, data).Ok? <==> WellFormed(ks)
    decreases |ks|
  {
    if |ks| > 0 {
      var init := ks[..|ks| - 1];
      ParseSucceedsIffWellFormed(init, data);
      assert forall i :: 0 <= i < |init| ==> init[i] == ks[i];
    }
  }

  /** The exception is the one of the first bad line: a line without `=`
      raises the library's error quoting the body, a line with several `=`
      an unpacking error. */
  lemma {:induction false} FirstBadLineDecides(ks: seq<Line>, i: nat, data: string)
    requires i < |ks|
    requires WellFormed(ks[..i])
    requires ks[i].IsBad()
    ensures ParseLines(ks, data) == Err(BadLineError(ks[i], data))
    decreases |ks|
  {
    if i == |ks| - 1 {
      ParseSucceedsIffWellFormed(ks[..i], data);
    } else {
      var init := ks[..|ks| - 1];
      assert init[..i] == ks[..i];
      FirstBadLineDecides(init, i, data);
    }
  }

  /** The dictionary holds exactly the keys some line defines. */
  lemma {:induction false} ParsedKeys(ks: seq<Line>, data: string)
    requires ParseLines(ks, data).Ok?
    ensures forall key :: key in ParseLines(ks, data).value <==>
              exists i :: 0 <= i < |ks| && Defines(ks, i, key)
    decreases |ks|
  {
    if |ks| > 0 {
      var n := |ks| - 1;
      var init := ks[..n];
      ParsedKeys(init, data);
      var fields := ParseLines(init, data).value;
      var r := ParseLines(ks, data).value;
      forall key
        ensures key in r <==> exists i :: 0 <= i < |ks| && Defines(ks, i, key)
      {
        if key in r && !Defines(ks, n, key) {
          assert key in fields;
          var i :| 0 <= i < n && Defines(init, i, key);
          assert Defines(ks, i, key);
        }
        if exists i :: 0 <= i < |ks| && Defines(ks, i, key) {
          var i :| 0 <= i < |ks| && Defines(ks, i, key);
          if i < n {
            assert Defines(init, i, key);
          }
        }
      }
    }
  }

  /** Each key maps to the value on the last line that defines it: a later
      entry overwrites an earlier one. */
  lemma {:induction false} LastEntryWins(ks: seq<Line>, i: nat, key: string, data: string)
    requires ParseLines(ks, data).Ok?
    requires i < |ks| && Defines(ks, i, key)
    requires forall j :: i < j < |ks| ==> !Defines(ks, j, key)
    ensures key in ParseLines(ks, data).value
    ensures ParseLines(ks, data).value[key] == ks[i].value
    decreases |ks|
  {
    var n := |ks| - 1;
    if i < n {
      var init := ks[..n];
      assert Defines(init, i, key);
      forall j | i < j < |init|
        ensures !Defines(init, j, key)
      {
        assert init[j] == ks[j];
        assert !Defines(ks, j, key);
      }
      assert ParseLines(init, data).Ok?;
      LastEntryWins(init, i, key, data);
      assert !Defines(ks, n, key);
    }
  }

  /** A comment or whitespace-only line adds no entry and raises nothing:
      the classified lines parse the same without it. The quoted body `data`
      is held fixed, since the library's error quotes the body as given. */
  lemma {:induction false} SkippedLineIsNeutral(front: seq<Line>, k: Line, back: seq<Line>, data: string)
    requires k.Comment? || k.Blank?
    ensures ParseLines(front + [k] + back, data) == ParseLines(front + back, data)
    decreases |back|
  {
    var all := front + [k] + back;
    var without := front + back;
    if |back| == 0 {
      assert all[..|all| - 1] == front;
      assert without == front;
    } else {
      var n := |back| - 1;
      SkippedLineIsNeutral(front, k, back[..n], data);
      assert all[..|all| - 1] == front + [k] + back[..n];
      assert without[..|without| - 1] == front + back[..n];
      assert all[|all| - 1] == back[n] == without[|without| - 1];
    }
  }

  /** The decision of `_create_ticket` on the parsed fields: a `WARNING` other
      than `"null"` fails first, quoting the warning; then a `RESULT` other than
      `"TRUE"` fails; otherwise the ticket is the `TICKET` field. A missing
      field is a lookup error. */
  function DecideTicket(fields: map<string, string>): (r: Result<string>)
    ensures r.Ok? <==>
              && "WARNING" in fields && fields["WARNING"] == "null"
              && "RESULT" in fields && fields["RESULT"] == "TRUE"
              && "TICKET" in fields
    ensures r.Ok? ==> r.value == fields["TICKET"]
    ensures "WARNING" in fields && fields["WARNING"] != "null" ==>
              r == Err(ZohoException(Some("Could not auth:" + fields["WARNING"])))
    ensures "WARNING" in fields && fields["WARNING"] == "null" &&
            "RESULT" in fields && fields["RESULT"] != "TRUE" ==>
              r == Err(ZohoException(Some("Ticket result was not valid")))
    ensures r.Err? && r.error.IsDomain() <==>
              "WARNING" in fields && (fields["WARNING"] != "null" || ("RESULT" in fields && fields["RESULT"] != "TRUE"))
  {
    if "WARNING" !in fields then Err(KeyError("WARNING"))
    else if fields["WARNING"] != "null" then Err(ZohoException(Some("Could not auth:" + fields["WARNING"])))
    else if "RESULT" !in fields then Err(KeyError("RESULT"))
    else if fields["RESULT"] != "TRUE" then Err(ZohoException(Some("Ticket result was not valid")))
    else if "TICKET" !in fields then Err(KeyError("TICKET"))
    else Ok(fields["TICKET"])
  }

  /** A body made of the given lines (none holding a newline) parses as those
      lines do. */
  lemma ParseJoinedLines(lines: seq<string>)
    requires |lines| >= 1
    requires forall i :: 0 <= i < |lines| ==> '\n' !in lines[i]
    ensures ParseTicketResponse(Join(lines, '\n')) == ParseLines(ClassifyAll(lines), Join(lines, '\n'))
  {
    SplitJoin(lines, '\n');
  }

  /** A body whose first bad line has no `=` fails with the library's own
      exception, quoting the whole body. */
  lemma MissingSeparatorFails(data: string, i: nat)
    requires i < |Split(data, '\n')|
    requires WellFormed(ClassifyAll(Split(data, '\n'))[..i])
    requires ClassifyLine(Split(data, '\n')[i]).NoSeparator?
    ensures ParseTicketResponse(data) == Err(ZohoException(Some("Bad ticket data:" + data)))
  {
    FirstBadLineDecides(ClassifyAll(Split(data, '\n')), i, data);
  }

  /** Appending an entry line to a well-formed prefix adds that entry. */
  lemma ParseAppendPair(ks: seq<Line>, key: string, value: string, data: string)
    requires ParseLines(ks, data).Ok?
    ensures ParseLines(ks + [Pair(key, value)], data) == Ok(ParseLines(ks, data).value[key := value])
  {
    assert (ks + [Pair(key, value)])[..|ks|] == ks;
  }

  /** Three entry lines, classified. */
  lemma ClassifyThreeEntries(k1: string, v1: string, k2: string, v2: string, k3: string, v3: string)
    requires '=' !in k1 && '=' !in v1 && '=' !in k2 && '=' !in v2 && '=' !in k3 && '=' !in v3
    requires (k1 == [] || k1[0] != '#') && (k2 == [] || k2[0] != '#') && (k3 == [] || k3[0] != '#')
    ensures ClassifyAll([k1 + "=" + v1, k2 + "=" + v2, k3 + "=" + v3]) == [Pair(k1, v1), Pair(k2, v2), Pair(k3, v3)]
  {
    ClassifyPair(k1, v1);
    ClassifyPair(k2, v2);
    ClassifyPair(k3, v3);
  }

  /** Three entries, whatever the body they came from, build the dictionary
      of the three, later keys winning. */
  lemma ParseThreePairs(k1: string, v1: string, k2: string, v2: string, k3: string, v3: string, data: string)
    ensures ParseLines([Pair(k1, v1), Pair(k2, v2), Pair(k3, v3)], data) == Ok(map[k1 := v1][k2 := v2][k3 := v3])
  {
    var s0: seq<Line> := [];
    var s1 := s0 + [Pair(k1, v1)];
    var s2 := s1 + [Pair(k2, v2)];
    var s3 := s2 + [Pair(k3, v3)];
    ParseAppendPair(s0, k1, v1, data);
    ParseAppendPair(s1, k2, v2, data);
    ParseAppendPair(s2, k3, v3, data);
    assert s3 == [Pair(k1, v1), Pair(k2, v2), Pair(k3, v3)];
  }

  /** A body of three entry lines parses into their three entries, a later
      key overwriting an earlier one. */
  lemma ThreeEntryBody(k1: string, v1: string, k2: string, v2: string, k3: string, v3: string)
    requires '=' !in k1 && '=' !in v1 && '=' !in k2 && '=' !in v2 && '=' !in k3 && '=' !in v3
    requires '\n' !in k1 && '\n' !in v1 && '\n' !in k2 && '\n' !in v2 && '\n' !in k3 && '\n' !in v3
    requires (k1 == [] || k1[0] != '#') && (k2 == [] || k2[0] != '#') && (k3 == [] || k3[0] != '#')
    ensures ParseTicketResponse(Join([k1 + "=" + v1, k2 + "=" + v2, k3 + "=" + v3], '\n'))
            == Ok(map[k1 := v1][k2 := v2][k3 := v3])
  {
    var lines := [k1 + "=" + v1, k2 + "=" + v2, k3 + "=" + v3];
    forall i | 0 <= i < |lines|
      ensures '\n' !in lines[i]
    {
    }
    ParseJoinedLines(lines);
    ClassifyThreeEntries(k1, v1, k2, v2, k3, v3);
    ParseThreePairs(k1, v1, k2, v2, k3, v3, Join(lines, '\n'));
  }

  /** End to end, for a body holding the three fields the decision reads
      (in this order): the ticket comes back exactly when the warning is
      `null` and the result is `TRUE`, and the warning is checked first. */
  lemma LoginResponseDecides(warning: string, result: string, ticket: string)
    requires '=' !in warning && '=' !in result && '=' !in ticket
    requires '\n' !in warning && '\n' !in result && '\n' !in ticket
    ensures var body := Join(["WARNING" + "=" + warning, "RESULT" + "=" + result, "TICKET" + "=" + ticket], '\n');
      && ParseTicketResponse(body).Ok?
      && DecideTicket(ParseTicketResponse(body).value) ==
           if warning != "null" then Err(ZohoException(Some("Could not auth:" + warning)))
           else if result != "TRUE" then Err(ZohoException(Some("Ticket result was not valid")))
           else Ok(ticket)
  {
    ThreeEntryBody("WARNING", warning, "RESULT", result, "TICKET", ticket);
  }
}

=== FILE: values.dfy ===
/**
 This module models the Python values the client handles before they go on the
 wire: the keyword options given to a connection and the caller's request
 parameters. Only the kinds of value the client actually meets are modelled
 (None, booleans, integers and strings), together with Python's truthiness and
 the text `str()` gives for each of them.
 */
module PyValues {

  /** A Python value passed as an option or a request parameter. */
  datatype Value = NoneV | BoolV(b: bool) | IntV(i: int) | StrV(s: string)

  /** Python truthiness: `None`, `False`, `0` and `""` are false. */
  predicate Truthy(v: Value) {
    match v
    case NoneV => false
    case BoolV(b) => b
    case IntV(i) => i != 0
    case StrV(s) => s != ""
  }

  predicate IsDigit(c: char) {
    '0' <= c <= '9'
  }

  predicate AllDigits(s: string) {
    forall i :: 0 <= i < |s| ==> IsDigit(s[i])
  }

  function DigitChar(d: nat): (c: char)
    requires d < 10
    ensures IsDigit(c)
    ensures c as int - '0' as int == d
  {
    ('0' as int + d) as char
  }

  /** The decimal digits of `n`, most significant first, with no leading zero. */
  function Digits(n: nat): (s: string)
    ensures |s| >= 1
    ensures AllDigits(s)
    ensures n > 0 ==> s[0] != '0'
    decreases n
  {
    if n < 10 then [DigitChar(n)] else Digits(n / 10) + [DigitChar(n % 10)]
  }

  /** Python's `str(v)`. */
  function Str(v: Value): string {
    match v
    case NoneV => "None"
    case BoolV(b) => if b then "True" else "False"
    case IntV(i) => if i < 0 then "-" + Digits(-i) else Digits(i)
    case StrV(s) => s
  }

  /** The text Python's `int(s)` accepts in the form `str` writes it:
      an optional minus sign followed by at least one digit. */
  predicate IsIntLiteral(s: string) {
    if |s| > 0 && s[0] == '-' then |s| > 1 && AllDigits(s[1..])
    else |s| > 0 && AllDigits(s)
  }

  /** The value of a string of decimal digits. */
  function ParseNat(s: string): nat
    requires AllDigits(s)
    decreases |s|
  {
    if |s| == 0 then 0 else 10 * ParseNat(s[..|s| - 1]) + (s[|s| - 1] as int - '0' as int)
  }

  /** Python's `int(s)` on an integer literal. */
  function ParseInt(s: string): int
    requires IsIntLiteral(s)
  {
    if s[0] == '-' then -(ParseNat(s[1..]) as int) else ParseNat(s)
  }

  /** Reading back the digits of `n` gives `n`. */
  lemma {:induction false} ParseDigits(n: nat)
    ensures ParseNat(Digits(n)) == n
    decreases n
  {
    if n >= 10 {
      ParseDigits(n / 10);
      var s := Digits(n);
      assert s[..|s| - 1] == Digits(n / 10);
    }
  }

  /** An integer parameter round-trips through `str()`: the text is an integer
      literal and `int()` of it is the original integer. */
  lemma StrIntRoundTrip(i: int)
    ensures IsIntLiteral(Str(IntV(i)))
    ensures ParseInt(Str(IntV(i))) == i
  {
    if i < 0 {
      ParseDigits(-i);
      assert Str(IntV(i))[1..] == Digits(-i);
    } else {
      ParseDigits(i);
    }
  }

  /** Distinct integers are sent as distinct texts. */
  lemma StrIntInjective(i: int, j: int)
    requires Str(IntV(i)) == Str(IntV(j))
    ensures i == j
  {
    StrIntRoundTrip(i);
    StrIntRoundTrip(j);
  }
}

=== FILE: xml.dfy ===
/**
 An already parsed XML document, and the two ElementTree lookups the response
 interpreters use: `element.findall(tag)` and `element.find(tag)`, both of
 which look only at the element's direct children. Parsing XML text is outside
 the model.
 */
module Xml {
  import opened Errors

  /** An element: its tag, attributes, text (`None` when it has none) and
      children in document order. */
  datatype Element = Element(tag: string, attrib: map<string, string>, text: Option<string>, children: seq<Element>)

  /** `element.get(key)`: the attribute's value, or `None`. */
  function GetAttribute(e: Element, key: string): Option<string> {
    if key in e.attrib then Some(e.attrib[key]) else None
  }

  /** `findall(tag)` over a list of children: those with the tag, in order. */
  function FindAll(children: seq<Element>, tag: string): (r: seq<Element>)
    ensures |r| <= |children|
    ensures forall e :: e in r <==> e in children && e.tag == tag
    decreases |children|
  {
    if |children| == 0 then []
    else (if children[0].tag == tag then [children[0]] else []) + FindAll(children[1..], tag)
  }

  /** `find(tag)` over a list of children: the first with the tag, if any. */
  function Find(children: seq<Element>, tag: string): (r: Option<Element>)
    ensures r.None? <==> forall i :: 0 <= i < |children| ==> children[i].tag != tag
    ensures r.Some? ==>
              exists i :: 0 <= i < |children| && children[i] == r.value && r.value.tag == tag &&
                forall j :: 0 <= j < i ==> children[j].tag != tag
    decreases |children|
  {
    if |children| == 0 then None
    else if children[0].tag == tag then Some(children[0])
    else Find(children[1..], tag)
  }

  /** `find` returns the first element `findall` would list. */
  lemma {:induction false} FindIsFirstOfFindAll(children: seq<Element>, tag: string)
    ensures Find(children, tag) == if FindAll(children, tag) == [] then None else Some(FindAll(children, tag)[0])
    decreases |children|
  {
    if |children| > 0 && children[0].tag != tag {
      FindIsFirstOfFindAll(children[1..], tag);
    }
  }

  /** `findall` keeps document order: the matches in two runs of children are
      the matches of the first run followed by those of the second. */
  lemma {:induction false} FindAllAppend(a: seq<Element>, b: seq<Element>, tag: string)
    ensures FindAll(a + b, tag) == FindAll(a, tag) + FindAll(b, tag)
    decreases |a|
  {
    if |a| > 0 {
      assert (a + b)[1..] == a[1..] + b;
      FindAllAppend(a[1..], b, tag);
    } else {
      assert a + b == b;
    }
  }
}
